=== FILE: README.md ===
# Telop style model

A Dafny model of the core of "Telop From Image", a desktop tool that derives
a text-overlay (telop) style from a source image, lets the operator edit it
as JSON, previews it, and hands it to an external export step.

The model covers:

- **The style record and its JSON contract** (`models.dfy`, over the JSON
  value tree of `json.dfy`). `TelopStyle` has eleven fields. Each one holds
  an arbitrary JSON value, because loading passes the decoded object straight
  to the record constructor as keyword arguments. Saving emits the fields in
  declaration order. Loading succeeds exactly when the document is an object
  whose key set is the eleven field names.
- **Default-style inference** (`analysis.dfy`). Image decoding is an oracle
  that yields the image's `(height, width)` or nothing. The inferred style is
  a fixed function of that shape.
- **The preview painter** (`preview.dfy`). Painting is reduced to the list of
  drawing commands the painter issues: a transparent canvas, then one text
  draw per stroke entry from the last entry to the first, then the fill
  draw. Fields of the wrong shape make the painter raise, and the model
  names the step that fails.
- **The window logic of `main.py`**. The disclaimer's consent gate
  (`disclaimer.dfy`) is a small record-based state machine. The main window
  (`main_window.dfy`) holds at most one current style. Its actions read
  dialog answers and decoded file contents as inputs and report message
  boxes, saved files and export requests as effects.

`base.dfy` holds the `Option` and `Result` wrappers.

Behaviours of the code worth stating explicitly:

- Loading does no type or range checking. Colour channels, sizes and the
  template name are stored exactly as decoded.
- The painter never reads the plate, the shadow or `fill["enabled"]`. It
  draws the fill whatever that flag says, and a null text is drawn as the
  empty string rather than skipped.
- Loading failures are the decoder's and the constructor's own errors
  (`MalformedText`, `NotAMapping`, `UnexpectedKeyword`, `MissingArguments`).
- A comment in the painter says strokes are drawn "from inner to outer".
  The loop walks the list in reverse: the last-listed entry is painted
  first (beneath the others).
- Strokes given as a string or a dict are iterated like a list (by
  character, by key), so painting fails at the first entry's colour lookup
  rather than at the loop.
- Integers handed to Qt where it takes a C `int` (canvas size, point size
  and draw position) fail outside -2^31..2^31-1; image dimensions are
  C `int`s as well.
- The disclaimer's progress bar starts reset, holding -1 (it shows no
  progress), until the first scroll sets it.
- The template name becomes part of the export paths unchecked (see
  Findings).

## Model

| member | source | states |
|---|---|---|
| Models.ToJson | telop_from_image_safe_bilingual/models.py:68-69 | the saved document is an object whose member names are exactly the eleven field names in declaration order (`text` … `template_name`); each name maps to that field's value |
| Models.Construct | telop_from_image_safe_bilingual/models.py:72-74 | keyword construction succeeds iff the document is an object whose key set equals the field names; a non-object is `NotAMapping`; an object with a key that is not a field name fails with `UnexpectedKeyword` naming such a key, whether or not fields are also missing; an object whose keys are a proper subset of the field names fails with `MissingArguments`, listing exactly the absent fields; on success every field holds, unchanged, the value under its key |
| Models.FromJson | telop_from_image_safe_bilingual/models.py:71-74 | text the decoder rejects gives `MalformedText`; otherwise loading succeeds iff the decoded value is an object with exactly the eleven keys, with no type or range check |
| Models.RoundTrip | telop_from_image_safe_bilingual/models.py:55-74 | loading the saved document of any style gives back that style, its `strokes` value (order and contents) included |
| Models.LoadThenSave | telop_from_image_safe_bilingual/models.py:68-74 | after a successful load, saving yields a document with the same key set, and every key maps to the same value as in the loaded document |
| Preview.ColorListUnpacks | telop_from_image_safe_bilingual/models.py:14-15 | `Color.to_list` yields `[r, g, b]` in that order: unpacked into the colour constructor it gives back r, g, b with full opacity |
| Analysis.InferStyle | telop_from_image_safe_bilingual/analysis.py:10-50 | an empty path list fails with `NoImages`; an undecodable first image fails with `Unreadable` naming it; otherwise the result depends only on the first image's decoded shape, so later paths and pixel contents are ignored |
| Analysis.StyleFor | telop_from_image_safe_bilingual/analysis.py:22-26 | text is null, font "Noto Sans JP Black" at 100, tracking -25, and (line 49) template name "ImageDerivedTelop_01" |
| Analysis.FillAndStrokeDefaults | telop_from_image_safe_bilingual/analysis.py:28-29 | the fill is enabled with colour [1.0, 1.0, 1.0]; there is exactly one stroke, colour [0.0, 0.0, 0.0] and width 20 |
| Analysis.ShadowDefaults | telop_from_image_safe_bilingual/analysis.py:30-37 | the shadow is disabled, colour [0.0, 0.0, 0.0], with distance, softness, opacity and direction all 0 |
| Analysis.BaselineRow | telop_from_image_safe_bilingual/analysis.py:27 | the baseline row y is the integer part of 0.9·H: 10y ≤ 9H < 10y + 10 |
| Analysis.CompMatchesImage | telop_from_image_safe_bilingual/analysis.py:48 | the composition is W × H at 30 fps for 10 seconds |
| Analysis.PlateMatchesImage | telop_from_image_safe_bilingual/analysis.py:38-47 | the plate is disabled, shape "rect", size `{w: W, h: H}`, radius 0, colour black, opacity 0, stroke width 0 and stroke colour black |
| Preview.OutlineDraws | telop_from_image_safe_bilingual/preview.py:32-35 | the stroke loop succeeds iff every entry yields a pen and, when there is an entry, the anchor is readable; it issues one draw per entry, and the k-th draw uses the pen of entry n-1-k |
| Preview.Render | telop_from_image_safe_bilingual/preview.py:19-41 | painting succeeds iff every field it reads has the shape it needs (`Renderable`: integers where Qt takes a C `int` must lie in its range); the commands it issues are exactly the reference layering `Layers` |
| Preview.NonListStrokes | telop_from_image_safe_bilingual/preview.py:32-33 | strokes given as a non-empty string or dict are iterated (characters, keys) and painting fails at the first entry's colour lookup; an empty one paints like an empty list; any other non-list value is not iterable |
| Preview.OverflowingIntegersFail | telop_from_image_safe_bilingual/preview.py:22-26 | a canvas width or a point size outside the C `int` range makes painting fail at that step |
| Preview.LayerOrder | telop_from_image_safe_bilingual/preview.py:21-40 | there are exactly n + 2 commands; the first is the only canvas, sized `comp["width"]` × `comp["height"]` and transparent; every later command is a text draw at `(position["x"], position["y"])` with the same string and font; entry i is drawn at position n - i, so entries are painted in reverse list order; the fill draw is last |
| Preview.PlateShadowAndFillFlagIgnored | telop_from_image_safe_bilingual/preview.py:19-41 | replacing the plate, the shadow, or any part of `fill` other than its colour changes nothing the painter does |
| Disclaimer.Percent | telop_from_image_safe_bilingual/main.py:74 | the read percentage is 100 for an empty scroll range, and lies in [0, 100] when 0 ≤ value ≤ maximum |
| Disclaimer.PercentTruncates | telop_from_image_safe_bilingual/main.py:74 | for a positive maximum the percentage is 100·value / maximum truncated toward zero, as `int()` truncates: p·max ≤ 100·value < (p+1)·max for value ≥ 0, and the mirror bound below zero |
| Disclaimer.UpdateButton | telop_from_image_safe_bilingual/main.py:83-84 | Continue is enabled iff the end was reached and the box is ticked; nothing else changes |
| Disclaimer.OnScroll | telop_from_image_safe_bilingual/main.py:71-81 | a scroll within two steps of the end sets the latch and the "complete" caption, otherwise the caption shows the percentage read; the bar takes that percentage when it lies in 0..100 and keeps its value otherwise; the latch is never cleared; the tick state is kept; the button is recomputed |
| Disclaimer.RunConsistent | telop_from_image_safe_bilingual/main.py:43-97 | in every state reached from a consistent one (the initial state included): Continue is enabled iff latch ∧ ticked, the progress bar holds -1 (reset, as a new bar starts) or a value in 0..100, and the dialog is accepted only after the end was reached |
| Disclaimer.ScrollLatch | telop_from_image_safe_bilingual/main.py:76-77 | after any events the latch is set iff it was set before or some scroll reached within two steps of the end |
| Disclaimer.RunChecked | telop_from_image_safe_bilingual/main.py:56-57 | the tick state after any events is the one the last checkbox change set |
| Disclaimer.ContinueGate | telop_from_image_safe_bilingual/main.py:43-84 | from the new dialog, Continue is enabled iff some scroll reached the end and the last checkbox change ticked the box |
| MainWindow.ShowPreview | telop_from_image_safe_bilingual/main.py:149 | the preview shows the style's layering when it renders; otherwise the preview is unchanged and the failure is reported |
| MainWindow.OpenImage | telop_from_image_safe_bilingual/main.py:142-151 | no paths changes nothing; a failed inference shows an error and keeps the old state; a successful one makes the inferred style current and writes its document into the editor |
| MainWindow.UpdateFromEditor | telop_from_image_safe_bilingual/main.py:153-159 | the editor is never touched; a failed load shows an error and leaves the whole window unchanged; a successful one replaces the style, even when drawing it then fails, and shows nothing exactly when drawing succeeds; the preview becomes the new style's layering when drawing succeeds and is kept otherwise |
| MainWindow.SaveStyle | telop_from_image_safe_bilingual/main.py:161-166 | without a style, or with a cancelled dialog, nothing happens; otherwise the chosen file receives a document that loads back to the current style |
| MainWindow.LoadStyle | telop_from_image_safe_bilingual/main.py:168-175 | a cancelled dialog changes nothing; a failed load raises and keeps the state; a successful one replaces the style and the editor text, then repaints: the preview becomes the new style's layering with no effect when drawing succeeds, and otherwise the preview is kept and the painter's error is uncaught |
| MainWindow.ExportPaths | telop_from_image_safe_bilingual/main.py:180-181 | `dist / (template_name + suffix)`: the paths exist iff the template name is a string; they end in the name followed by `.jsx` and `.mogrt`; the two paths share one stem; a relative name gives `dist + "/" + name + suffix`, which lies directly in the output directory exactly under a name without `/`; an absolute name replaces the output directory |
| MainWindow.RelativeTemplateNameLeaves | telop_from_image_safe_bilingual/main.py:180-181 | the template names `a/b` and `../x` give `dist/a/b.jsx` and `dist/../x.jsx` (and `.mogrt`), neither of which lies directly in the output directory |
| MainWindow.AbsoluteTemplateNameEscapes | telop_from_image_safe_bilingual/main.py:180-181 | the template name `/tmp/x` gives `/tmp/x.jsx` and `/tmp/x.mogrt`, which lie outside every output directory other than `/tmp` |
| MainWindow.SafeExportPaths | telop_from_image_safe_bilingual/main.py:180-181 | the corrected paths exist iff the template name is a string without `/`; then they equal the unchecked paths and both lie directly in the output directory |
| MainWindow.GenerateJsx | telop_from_image_safe_bilingual/main.py:177-183 | without a style nothing happens; a template name that is not a string raises; any string name has the script built at the unchecked export paths, directly inside the output directory when the name holds no `/`, and at the corrected paths whenever those exist |
| MainWindow.RunAe | telop_from_image_safe_bilingual/main.py:185-192 | as for generating, and the external tool is run on those paths |
| MainWindow.ExportEscapes | telop_from_image_safe_bilingual/main.py:177-192 | with a current style whose template name is `/tmp/x`, generating builds `/tmp/x.jsx` and `/tmp/x.mogrt` and running also runs the tool on them, outside every output directory other than `/tmp` |
| MainWindow.ActionsNeedStyle | telop_from_image_safe_bilingual/main.py:161-187 | with no current style, save, generate and run leave the window unchanged and have no effect |
| MainWindow.StyleNeverCleared | telop_from_image_safe_bilingual/main.py:105-195 | once a style is current, no sequence of actions makes the window style-less again |
| MainWindow.StyleComesFrom | telop_from_image_safe_bilingual/main.py:142-175 | a window without a style that ends a session with one performed an open, an editor update or a load: no other action sets the style |
| MainWindow.FromStart | telop_from_image_safe_bilingual/main.py:105 | the window starts without a style, so a session from it ends with one only after an open, an editor update or a load |
| MainWindow.SaveThenLoad | telop_from_image_safe_bilingual/main.py:161-175 | loading the file a save wrote makes the saved style current again |
| MainWindow.InferredStyleRenders | telop_from_image_safe_bilingual/analysis.py:22-50 | the inferred style paints a W × H canvas, then one black outline of width 20, then the white fill, each drawing the empty string at (W div 2, 9H div 10) |
| MainWindow.OpenDecodableImage | telop_from_image_safe_bilingual/main.py:142-151 | opening a decodable image never shows an error; the preview shows the inferred layering; it holds a canvas and then text draws, and for W, H ≥ 1 the first draw's anchor lies inside that canvas |
| MainWindow.FullHdExample | telop_from_image_safe_bilingual/analysis.py:27 | a 1920 × 1080 image gives a 1920 × 1080 canvas with both draws anchored at (960, 972) |

## Left out

- JSON text: `json.dumps` formatting (indentation, `ensure_ascii=False`) and `json.loads` parsing are not modelled. Loading starts from the decoder's result, and `None` stands for text that does not decode. The round trip is stated at the value level; that decoding the dumped text gives back the same value is assumed, not proved.
- Floats: colour channels, pen widths and letter spacing are real numbers, with no rounding. The float product `int(H * 0.9)` is modelled as `9H div 10`. This equals the float result for every realistic height, but bit-exact float equivalence is not claimed.
- Disclaimer.Percent: `int(value / maximum * 100)` is modelled as `100·value / maximum` truncated toward zero. The float computation can come out one lower (for example 29 of 100 gives 28), and that is not modelled.
- Qt rasterisation: pixels, anti-aliasing, pen caps and joins, glyph shaping, font fallback, and the scaling of the preview pixmap to the widget. Only the drawing commands are modelled. A zero or negative canvas size, which Qt turns into a null image, is not treated specially.
- Preview.Render: PySide's argument conversion is modelled as accepting integers only as JSON integers in the C `int` range, and reals only as JSON numbers. Booleans where Qt takes a number, and Qt 6's font-family-list overload, are treated as failures. `json.loads` also accepts `NaN`, `Infinity` and `-Infinity`, which `JsonValue` cannot hold, and an integer too large for a double fails where Qt takes a float; neither is modelled.
- MainWindow.ExportPaths: paths follow POSIX `pathlib` rules. Windows drive letters and backslash separators, and `pathlib`'s collapsing of repeated separators and `.` components, are not modelled.
- The output directory is `dist` beside the program's files; where that is depends on the installation, so it is a parameter of the actions.
- Python's message for an extra key named `self` ("multiple values") differs from the unexpected-keyword message. Both are type errors, and the model reports both as `UnexpectedKeyword`.
- `cv2.imread` is an oracle on the image path, because OpenCV decoding is a foreign call.
- The script builder `build_jsx` is not part of this model. Export requests are reported as effects carrying the two paths.
- The external-tool runner (`ae_runner.py`) is not part of this model. It only locates the executable, runs a subprocess and checks that a file exists.
- File dialogs, file reads and writes, message-box texts, the SHA-1 revision label of the disclaimer text, and the Qt event loop are left out. Dialog answers and file contents are action inputs. Reads that fail behave like text that does not decode.
- Keys in the disclaimer other than Escape and Ctrl/Meta/Alt with Escape or W get Qt's default dialog handling, which is not modelled.
- The typed records `Stroke`, `Shadow`, `Plate` and `Comp` are never used by the program: the style stores plain dicts. Only `Color.to_list` is modelled.
- The preview widget's private copy of the last style (`_style`) is not modelled, because nothing reads it.

## Findings

| source | as written | input that shows it | evidently intended | confidence | as-written member | corrected member |
|---|---|---|---|---|---|---|
| telop_from_image_safe_bilingual/main.py:180-181 | the export paths (here and again at lines 188-189) are `DIST_DIR / (template_name + ".jsx")` (and `.mogrt`) with the template name, which loading never checks, used as a path | a loaded style with `"template_name": "/tmp/x"` writes `/tmp/x.jsx`; `"../x"` leaves the output directory; `"a/b"` writes into a subdirectory | both files are written directly inside the output directory, so a name with a separator is refused | medium; not executed | MainWindow.ExportPaths, MainWindow.AbsoluteTemplateNameEscapes, MainWindow.RelativeTemplateNameLeaves, MainWindow.ExportEscapes | MainWindow.SafeExportPaths; MainWindow.GenerateJsx and MainWindow.RunAe build at its paths whenever it accepts the name |

=== FILE: analysis.dfy ===
/**
  Default-style inference from images.

  Only the first image is read, and only its pixel height and width are
  used.  Decoding is an oracle `imread` that yields the decoded shape, or
  `None` when the file cannot be read or decoded.
*/
module Analysis {
  import opened Base
  import opened Json
  import opened Models

  /** An image dimension: OpenCV keeps rows and columns as C `int`s. */
  type Dim = d: nat | d < 0x8000_0000

  /** The first two entries of a decoded image's shape: rows, then columns. */
  datatype ImageShape = ImageShape(height: Dim, width: Dim)

  datatype InferError =
    | NoImages               // the path list is empty
    | Unreadable(path: string) // the first image did not decode

  const DefaultFont := "Noto Sans JP Black"
  const DefaultTemplate := "ImageDerivedTelop_01"

  /** An RGB channel list with every channel equal to `c`. */
  function Grey(c: real): JsonValue {
    JArray([JFloat(c), JFloat(c), JFloat(c)])
  }

  /**
    `int(height * 0.9)`, the baseline row.  The source multiplies by the
    float 0.9; for heights below 2^50 the product rounds to a value whose
    integer part is the exact quotient below.
  */
  function BaselineRow(height: nat): (y: nat)
    ensures 10 * y <= 9 * height < 10 * y + 10
  {
    9 * height / 10
  }

  /** The fill: enabled and white. */
  const InferredFill := JObject([("enabled", JBool(true)), ("color", Grey(1.0))])

  /** One black stroke of width 20. */
  const InferredStroke := JObject([("color", Grey(0.0)), ("width", JInt(20))])

  /** The shadow: disabled, every parameter zero. */
  const InferredShadow := JObject([
    ("enabled", JBool(false)), ("color", Grey(0.0)), ("distance", JInt(0)),
    ("softness", JInt(0)), ("opacity", JInt(0)), ("direction", JInt(0))])

  /** The text anchor: horizontally centred, on the baseline row. */
  function InferredPosition(shape: ImageShape): JsonValue {
    JObject([("x", JInt(shape.width / 2)), ("y", JInt(BaselineRow(shape.height)))])
  }

  /** The plate: disabled, sized to the image. */
  function InferredPlate(shape: ImageShape): JsonValue {
    JObject([
      ("enabled", JBool(false)), ("shape", JString("rect")),
      ("size", JObject([("w", JInt(shape.width)), ("h", JInt(shape.height))])),
      ("radius", JInt(0)), ("color", Grey(0.0)), ("opacity", JInt(0)),
      ("stroke_width", JInt(0)), ("stroke_color", Grey(0.0))])
  }

  /** The composition: the image's size, 30 fps, 10 seconds. */
  function InferredComp(shape: ImageShape): JsonValue {
    JObject([("width", JInt(shape.width)), ("height", JInt(shape.height)), ("fps", JInt(30)), ("duration", JInt(10))])
  }

  /** The style derived from an image of the given shape. */
  function StyleFor(shape: ImageShape): (s: TelopStyle)
    ensures s.text == JNull
    ensures s.fontName == JString(DefaultFont)
    ensures s.fontSize == JInt(100) && s.tracking == JInt(-25)
    ensures s.templateName == JString(DefaultTemplate)
  {
    TelopStyle(
      JNull, JString(DefaultFont), JInt(100), JInt(-25),
      InferredPosition(shape), InferredFill, JArray([InferredStroke]),
      InferredShadow, InferredPlate(shape), InferredComp(shape),
      JString(DefaultTemplate))
  }

  /** `infer_style_from_images`. */
  function InferStyle(paths: seq<string>, imread: string -> Option<ImageShape>): (r: Result<TelopStyle, InferError>)
    ensures |paths| == 0 <==> r == Err(NoImages)
    ensures |paths| > 0 ==> (imread(paths[0]).None? <==> r == Err(Unreadable(paths[0])))
    ensures r.Ok? <==> |paths| > 0 && imread(paths[0]).Some?
    ensures r.Ok? ==> r.value == StyleFor(imread(paths[0]).value)
  {
    if |paths| == 0 then Err(NoImages)
    else
      match imread(paths[0])
      case None => Err(Unreadable(paths[0]))
      case Some(shape) => Ok(StyleFor(shape))
  }

  /** The composition has the image's size, 30 fps and a 10 second duration. */
  lemma CompMatchesImage(shape: ImageShape)
    ensures StyleFor(shape).comp.JObject?
    ensures var comp := StyleFor(shape).comp.members;
      && Get(comp, "width") == Some(JInt(shape.width))
      && Get(comp, "height") == Some(JInt(shape.height))
      && Get(comp, "fps") == Some(JInt(30))
      && Get(comp, "duration") == Some(JInt(10))
  {
    var comp := StyleFor(shape).comp.members;
    assert DistinctKeys(comp);
    GetDistinct(comp, 0);
    GetDistinct(comp, 1);
    GetDistinct(comp, 2);
    GetDistinct(comp, 3);
  }

  /** The fill is enabled and white; the single stroke is black and 20 wide. */
  lemma FillAndStrokeDefaults(shape: ImageShape)
    ensures var s := StyleFor(shape);
      && s.fill.JObject?
      && Get(s.fill.members, "enabled") == Some(JBool(true))
      && Get(s.fill.members, "color") == Some(JArray([JFloat(1.0), JFloat(1.0), JFloat(1.0)]))
      && s.strokes.JArray? && |s.strokes.items| == 1 && s.strokes.items[0].JObject?
      && Get(s.strokes.items[0].members, "color") == Some(JArray([JFloat(0.0), JFloat(0.0), JFloat(0.0)]))
      && Get(s.strokes.items[0].members, "width") == Some(JInt(20))
  {
    assert DistinctKeys(InferredFill.members);
    GetDistinct(InferredFill.members, 0);
    GetDistinct(InferredFill.members, 1);
    assert DistinctKeys(InferredStroke.members);
    GetDistinct(InferredStroke.members, 0);
    GetDistinct(InferredStroke.members, 1);
  }

  /** The shadow is disabled, black, and every one of its parameters is zero. */
  lemma ShadowDefaults(shape: ImageShape)
    ensures var s := StyleFor(shape);
      && s.shadow.JObject?
      && Get(s.shadow.members, "enabled") == Some(JBool(false))
      && Get(s.shadow.members, "color") == Some(JArray([JFloat(0.0), JFloat(0.0), JFloat(0.0)]))
      && Get(s.shadow.members, "distance") == Some(JInt(0))
      && Get(s.shadow.members, "softness") == Some(JInt(0))
      && Get(s.shadow.members, "opacity") == Some(JInt(0))
      && Get(s.shadow.members, "direction") == Some(JInt(0))
  {
    var shadow := InferredShadow.members;
    assert DistinctKeys(shadow);
    GetDistinct(shadow, 0);
    GetDistinct(shadow, 1);
    GetDistinct(shadow, 2);
    GetDistinct(shadow, 3);
    GetDistinct(shadow, 4);
    GetDistinct(shadow, 5);
  }

  /**
    The plate is a disabled black rectangle sized to the image, with no
    corner radius, no opacity and a zero-width black outline.
  */
  lemma PlateMatchesImage(shape: ImageShape)
    ensures StyleFor(shape).plate.JObject?
    ensures var plate := StyleFor(shape).plate.members;
      && Get(plate, "enabled") == Some(JBool(false))
      && Get(plate, "shape") == Some(JString("rect"))
      && Get(plate, "size") == Some(JObject([("w", JInt(shape.width)), ("h", JInt(shape.height))]))
      && Get(plate, "radius") == Some(JInt(0))
      && Get(plate, "color") == Some(JArray([JFloat(0.0), JFloat(0.0), JFloat(0.0)]))
      && Get(plate, "opacity") == Some(JInt(0))
      && Get(plate, "stroke_width") == Some(JInt(0))
      && Get(plate, "stroke_color") == Some(JArray([JFloat(0.0), JFloat(0.0), JFloat(0.0)]))
  {
    var plate := StyleFor(shape).plate.members;
    assert DistinctKeys(plate);
    GetDistinct(plate, 0);
    GetDistinct(plate, 1);
    GetDistinct(plate, 2);
    GetDistinct(plate, 3);
    GetDistinct(plate, 4);
    GetDistinct(plate, 5);
    GetDistinct(plate, 6);
    GetDistinct(plate, 7);
  }
}

=== FILE: base.dfy ===
/** Failure-compatible wrappers shared by every module of the model. */
module Base {

  /** A value that may be absent (Python's `None`). */
  datatype Option<+T> = None | Some(value: T)

  /** The outcome of an operation that either produces a value or raises. */
  datatype Result<+T, +E> = Ok(value: T) | Err(error: E) {

    predicate IsFailure() {
      Err?
    }

    function PropagateFailure<U>(): Result<U, E>
      requires Err?
    {
      Err(error)
    }

    function Extract(): T
      requires Ok?
    {
      value
    }
  }
}

=== FILE: disclaimer.dfy ===
/**
  The disclaimer consent gate shown before the main window.

  The reader must scroll the disclaimer to (within two steps of) its end
  and tick the "I Understand" box; only then is Continue enabled.  Reaching
  the end is latched: scrolling back up afterwards does not clear it.  The
  close button, Escape, and Escape or W with Ctrl, Meta or Alt are ignored,
  so Continue is the only way out.
*/
module Disclaimer {

  /** The progress label under the bar. */
  datatype Label = Reading(percent: int) | ReadComplete

  datatype Gate = Gate(
    hasScrolled: bool,
    checked: bool,
    continueEnabled: bool,
    progress: int,   // the bar's value: -1 while reset, otherwise in 0..100
    caption: Label,
    accepted: bool)

  /**
    The dialog as constructed: nothing read, box unticked, Continue
    disabled.  A new progress bar is reset, holding minimum - 1, and
    narrowing its range to 0..100 keeps it so.
  */
  const Initial := Gate(false, false, false, -1, Reading(0), false)

  datatype Event =
    | Scrolled(value: int, maximum: int) // the scroll bar moved to `value` of `maximum`
    | CheckChanged(checked: bool)         // the box was ticked or unticked
    | ContinueClicked                     // a click on Continue
    | Dismissed                           // the close button, Escape, or Ctrl/Meta/Alt with Escape or W

  /** Integer division rounding toward zero, as Python's `int()` of a quotient. */
  function TruncDiv(a: int, b: int): (q: int)
    requires b > 0
  {
    if a >= 0 then a / b else -((-a) / b)
  }

  /** At least one copy of m is at least m. */
  lemma {:induction false} AtLeastOnce(x: nat, m: nat)
    requires x >= 1
    ensures x * m >= m
    decreases x
  {
    if x > 1 {
      AtLeastOnce(x - 1, m);
      assert x * m == (x - 1) * m + m;
    }
  }

  /** A share of at most the whole, scaled to 100, is at most 100. */
  lemma ScaledShare(v: int, m: int)
    requires 0 <= v <= m && m > 0
    ensures 0 <= (100 * v) / m <= 100
  {
    var q := (100 * v) / m;
    assert q * m + (100 * v) % m == 100 * v;
    if q > 100 {
      AtLeastOnce(q - 100, m);
      assert false;
    }
  }

  /** `int(value / maximum * 100)`, or 100 for an empty range. */
  function Percent(value: int, maximum: int): (p: int)
    ensures maximum <= 0 ==> p == 100
    ensures maximum > 0 && 0 <= value <= maximum ==> 0 <= p <= 100
  {
    if maximum <= 0 then 100
    else
      if 0 <= value <= maximum then ScaledShare(value, maximum); TruncDiv(100 * value, maximum)
      else TruncDiv(100 * value, maximum)
  }

  /** The percentage is the exact quotient truncated toward zero. */
  lemma PercentTruncates(value: int, maximum: int)
    requires maximum > 0
    ensures var p := Percent(value, maximum);
      && (value >= 0 ==> p * maximum <= 100 * value < (p + 1) * maximum)
      && (value < 0 ==> (p - 1) * maximum < 100 * value <= p * maximum)
  {
    var a := 100 * value;
    if a >= 0 {
      assert (a / maximum) * maximum + a % maximum == a;
    } else {
      assert ((-a) / maximum) * maximum + (-a) % maximum == -a;
    }
  }

  /** `QProgressBar.setValue` on the range 0..100 ignores values outside it. */
  function SetProgress(current: int, value: int): int {
    if 0 <= value <= 100 then value else current
  }

  /** `_update_button`: Continue is enabled exactly when both conditions hold. */
  function UpdateButton(g: Gate): (g': Gate)
    ensures g'.continueEnabled <==> g.hasScrolled && g.checked
    ensures g' == g.(continueEnabled := g'.continueEnabled)
  {
    g.(continueEnabled := g.hasScrolled && g.checked)
  }

  /** `_on_scroll`. */
  function OnScroll(g: Gate, value: int, maximum: int): (g': Gate)
    ensures g'.hasScrolled <==> g.hasScrolled || value >= maximum - 2
    ensures g'.checked == g.checked && g'.accepted == g.accepted
    ensures g'.continueEnabled <==> g'.hasScrolled && g'.checked
    ensures g'.caption == ReadComplete <==> value >= maximum - 2
    ensures value < maximum - 2 ==> g'.caption == Reading(Percent(value, maximum))
    ensures 0 <= Percent(value, maximum) <= 100 ==> g'.progress == Percent(value, maximum)
    ensures !(0 <= Percent(value, maximum) <= 100) ==> g'.progress == g.progress
  {
    var percent := Percent(value, maximum);
    var atEnd := value >= maximum - 2;
    var g1 := g.(
      progress := SetProgress(g.progress, percent),
      hasScrolled := g.hasScrolled || atEnd,
      caption := if atEnd then ReadComplete else Reading(percent));
    UpdateButton(g1)
  }

  function Step(g: Gate, e: Event): Gate {
    match e
    case Scrolled(value, maximum) => OnScroll(g, value, maximum)
    case CheckChanged(on) => UpdateButton(g.(checked := on))
    case ContinueClicked => if g.continueEnabled then g.(accepted := true) else g
    case Dismissed => g
  }

  function Run(g: Gate, events: seq<Event>): Gate
    decreases |events|
  {
    if |events| == 0 then g else Run(Step(g, events[0]), events[1..])
  }

  /** An event that brings the scroll bar to within two steps of its end. */
  predicate ReachesEnd(e: Event) {
    e.Scrolled? && e.value >= e.maximum - 2
  }

  /** The state every reachable gate is in. */
  predicate Consistent(g: Gate) {
    && (g.continueEnabled <==> g.hasScrolled && g.checked)
    && -1 <= g.progress <= 100
    && (g.accepted ==> g.hasScrolled)
  }

  /** Consistency holds initially and survives every event. */
  lemma {:induction false} RunConsistent(g: Gate, events: seq<Event>)
    requires Consistent(g)
    ensures Consistent(Run(g, events))
    decreases |events|
  {
    if |events| > 0 {
      RunConsistent(Step(g, events[0]), events[1..]);
    }
  }

  /** Reaching the end is latched: it is set by some event reaching the end and never cleared. */
  lemma {:induction false} ScrollLatch(g: Gate, events: seq<Event>)
    ensures Run(g, events).hasScrolled <==>
      g.hasScrolled || exists i :: 0 <= i < |events| && ReachesEnd(events[i])
    decreases |events|
  {
    if |events| > 0 {
      ScrollLatch(Step(g, events[0]), events[1..]);
      assert forall i :: 0 < i < |events| ==> events[i] == events[1..][i - 1];
      if exists i :: 0 <= i < |events[1..]| && ReachesEnd(events[1..][i]) {
        var i :| 0 <= i < |events[1..]| && ReachesEnd(events[1..][i]);
        assert ReachesEnd(events[i + 1]);
      }
    }
  }

  /** Whether the box is ticked after `events`: the last change wins. */
  function CheckedAfter(initial: bool, events: seq<Event>): bool
    decreases |events|
  {
    if |events| == 0 then initial
    else if events[|events| - 1].CheckChanged? then events[|events| - 1].checked
    else CheckedAfter(initial, events[..|events| - 1])
  }

  lemma {:induction false} RunChecked(g: Gate, events: seq<Event>)
    ensures Run(g, events).checked == CheckedAfter(g.checked, events)
    decreases |events|
  {
    if |events| > 0 {
      RunChecked(Step(g, events[0]), events[1..]);
      CheckedAfterFront(g.checked, events);
    }
  }

  lemma {:induction false} CheckedAfterFront(initial: bool, events: seq<Event>)
    requires |events| > 0
    ensures CheckedAfter(initial, events) ==
      CheckedAfter(if events[0].CheckChanged? then events[0].checked else initial, events[1..])
    decreases |events|
  {
    if |events| > 1 {
      var init := events[..|events| - 1];
      assert init[0] == events[0];
      assert init[1..] == events[1..][..|events| - 2];
      CheckedAfterFront(initial, init);
    }
  }

  /**
    From the freshly built dialog, Continue is enabled exactly when some
    scroll reached the end and the last checkbox change ticked the box.
  */
  lemma ContinueGate(events: seq<Event>)
    ensures Run(Initial, events).continueEnabled <==>
      (exists i :: 0 <= i < |events| && ReachesEnd(events[i])) && CheckedAfter(false, events)
  {
    RunConsistent(Initial, events);
    ScrollLatch(Initial, events);
    RunChecked(Initial, events);
  }
}

=== FILE: json.dfy ===
/**
  JSON documents as the Python `json` module decodes them: a tree of
  null, booleans, integers, floats, strings, lists and objects.

  An object is kept as its member list in document order.  A decoded
  Python `dict` cannot hold a key twice; when the member list does, the
  model reads it the way `dict(pairs)` builds a dict: the key set is the
  set of names and a lookup sees the LAST member with that name.
*/
module Json {
  import opened Base

  datatype JsonValue =
    | JNull
    | JBool(b: bool)
    | JInt(i: int)
    | JFloat(f: real)
    | JString(s: string)
    | JArray(items: seq<JsonValue>)
    | JObject(members: seq<(string, JsonValue)>)

  type Members = seq<(string, JsonValue)>

  /** The key set of an object's member list. */
  function Keys(members: Members): set<string> {
    set i | 0 <= i < |members| :: members[i].0
  }

  /** The member names in document order. */
  function KeyOrder(members: Members): (names: seq<string>)
    ensures |names| == |members|
    ensures forall i :: 0 <= i < |members| ==> names[i] == members[i].0
  {
    seq(|members|, i requires 0 <= i < |members| => members[i].0)
  }

  predicate DistinctKeys(members: Members) {
    forall i, j :: 0 <= i < j < |members| ==> members[i].0 != members[j].0
  }

  /** `obj[key]` on a decoded dict: the value of the last member named `key`. */
  function Get(members: Members, key: string): (r: Option<JsonValue>)
    ensures r.Some? <==> key in Keys(members)
    ensures r.Some? ==> exists i :: 0 <= i < |members| && members[i] == (key, r.value)
  {
    if |members| == 0 then None
    else
      var init := members[..|members| - 1];
      assert Keys(members) == Keys(init) + {members[|members| - 1].0} by {
        assert forall i :: 0 <= i < |init| ==> init[i] == members[i];
      }
      if members[|members| - 1].0 == key then Some(members[|members| - 1].1)
      else Get(init, key)
  }

  /** In a member list without repeated names, a lookup finds the member itself. */
  lemma {:induction false} GetDistinct(members: Members, i: nat)
    requires DistinctKeys(members)
    requires i < |members|
    ensures Get(members, members[i].0) == Some(members[i].1)
    decreases |members|
  {
    var last := |members| - 1;
    if i < last {
      var init := members[..last];
      assert members[last].0 != members[i].0;
      assert init[i] == members[i];
      GetDistinct(init, i);
    }
  }

  /** Python truthiness, as used by `x or default`. */
  predicate Truthy(v: JsonValue) {
    match v
    case JNull => false
    case JBool(b) => b
    case JInt(i) => i != 0
    case JFloat(f) => f != 0.0
    case JString(s) => |s| > 0
    case JArray(items) => |items| > 0
    case JObject(members) => |members| > 0
  }
}

=== FILE: main_window.dfy ===
/**
  The main window's application state and its actions.

  The window holds at most one current style.  Opening an image infers a
  style; the editor's text, once decoded, replaces it; saving, generating
  the export script and running the external tool all use it and do
  nothing while there is none.  File dialogs, file contents and the JSON
  decoder are inputs of the actions; the message boxes and the export
  collaborator are reported as effects.
*/
module MainWindow {
  import opened Base
  import opened Json
  import opened Models
  import opened Analysis
  import opened Preview

  datatype Window = Window(
    style: Option<TelopStyle>,
    editor: Option<JsonValue>,          // the document last written into the editor
    preview: Option<seq<DrawCmd>>)      // the commands behind the pixmap on show

  /** The window as constructed. */
  const Start := Window(None, None, None)

  datatype Effect =
    | NoEffect
    | ErrorBox                                           // an exception caught and shown
    | Uncaught                                           // an exception left to the event loop
    | WriteStyle(path: string, document: JsonValue)      // the saved style file
    | BuildScript(jsx: string, mogrt: string)            // `build_jsx`, then a notice
    | BuildAndRun(jsx: string, mogrt: string)            // `build_jsx`, then the external tool

  /** `preview.update_style(s)`: the preview changes only when rendering succeeds. */
  function ShowPreview(w: Window, s: TelopStyle, failure: Effect): (r: (Window, Effect))
    ensures r.0.style == w.style && r.0.editor == w.editor
    ensures Renderable(s) ==> r == (w.(preview := Some(Layers(s))), NoEffect)
    ensures !Renderable(s) ==> r == (w, failure)
  {
    match Render(s)
    case Ok(cmds) => (w.(preview := Some(cmds)), NoEffect)
    case Err(_) => (w, failure)
  }

  /**
    `open_image`: a cancelled dialog (no paths) changes nothing; a failed
    inference shows an error and keeps the old state; otherwise the inferred
    style becomes current and is written into the editor before the preview
    is drawn.
  */
  function OpenImage(w: Window, paths: seq<string>, imread: string -> Option<ImageShape>): (r: (Window, Effect))
    ensures |paths| == 0 ==> r == (w, NoEffect)
    ensures |paths| > 0 && InferStyle(paths, imread).Err? ==> r == (w, ErrorBox)
    ensures InferStyle(paths, imread).Ok? ==>
      var s := InferStyle(paths, imread).value;
      r.0.style == Some(s) && r.0.editor == Some(ToJson(s))
  {
    if |paths| == 0 then (w, NoEffect)
    else
      match InferStyle(paths, imread)
      case Err(_) => (w, ErrorBox)
      case Ok(s) => ShowPreview(w.(style := Some(s), editor := Some(ToJson(s))), s, ErrorBox)
  }

  /**
    `update_preview_from_editor`: `decoded` is the editor's text as the JSON
    decoder reads it.  A failed load shows an error and keeps the previous
    style; a successful one replaces the style even if drawing it then fails.
  */
  function UpdateFromEditor(w: Window, decoded: Option<JsonValue>): (r: (Window, Effect))
    ensures r.0.editor == w.editor
    ensures r.0.style == if FromJson(decoded).Ok? then Some(FromJson(decoded).value) else w.style
    ensures decoded.None? ==> r == (w, ErrorBox)
    ensures FromJson(decoded).Err? ==> r == (w, ErrorBox)
    ensures FromJson(decoded).Ok? ==> (r.1 == NoEffect <==> Renderable(FromJson(decoded).value))
    ensures r.0.preview ==
      if FromJson(decoded).Ok? && Renderable(FromJson(decoded).value)
      then Some(Layers(FromJson(decoded).value)) else w.preview
  {
    match FromJson(decoded)
    case Err(_) => (w, ErrorBox)
    case Ok(s) => ShowPreview(w.(style := Some(s)), s, ErrorBox)
  }

  /**
    `save_style`: with no style nothing happens; otherwise the chosen path
    (empty when the dialog is cancelled) receives the saved document.
  */
  function SaveStyle(w: Window, chosen: string): (r: (Window, Effect))
    ensures r.0 == w
    ensures w.style.None? || chosen == "" ==> r.1 == NoEffect
    ensures r.1.WriteStyle? ==> r.1.path == chosen && FromJson(Some(r.1.document)) == Ok(w.style.value)
    ensures w.style.Some? && chosen != "" ==> r.1.WriteStyle?
  {
    if w.style.None? then (w, NoEffect)
    else if chosen == "" then (w, NoEffect)
    else
      RoundTrip(w.style.value);
      (w, WriteStyle(chosen, ToJson(w.style.value)))
  }

  /**
    `load_style`: like the editor update, but the failure is not caught and
    the loaded style is also written back into the editor.  A file that
    cannot be read fails like text that does not decode.
  */
  function LoadStyle(w: Window, chosen: string, decoded: Option<JsonValue>): (r: (Window, Effect))
    ensures chosen == "" ==> r == (w, NoEffect)
    ensures chosen != "" && FromJson(decoded).Err? ==> r == (w, Uncaught)
    ensures chosen != "" && FromJson(decoded).Ok? ==>
      var s := FromJson(decoded).value;
      r.0.style == Some(s) && r.0.editor == Some(ToJson(s))
    ensures r.0.preview ==
      if chosen != "" && FromJson(decoded).Ok? && Renderable(FromJson(decoded).value)
      then Some(Layers(FromJson(decoded).value)) else w.preview
    ensures chosen != "" && FromJson(decoded).Ok? ==>
      (r.1 == NoEffect <==> Renderable(FromJson(decoded).value)) && (r.1 != NoEffect ==> r.1 == Uncaught)
  {
    if chosen == "" then (w, NoEffect)
    else
      match FromJson(decoded)
      case Err(_) => (w, Uncaught)
      case Ok(s) => ShowPreview(w.(style := Some(s), editor := Some(ToJson(s))), s, Uncaught)
  }

  /**
    `Path(dir) / name` on POSIX paths: an absolute `name` replaces `dir`;
    any other is appended after a separator, with its own separators and
    `..` components kept.
  */
  function Join(dir: string, name: string): string {
    if |name| > 0 && name[0] == '/' then name else dir + "/" + name
  }

  /** `path` names an entry directly inside `dir`, called `path[|dir| + 1..]`. */
  predicate DirectlyIn(path: string, dir: string) {
    && |path| > |dir| + 1
    && path[..|dir|] == dir
    && path[|dir|] == '/'
    && '/' !in path[|dir| + 1..]
  }

  predicate EndsWith(s: string, suffix: string) {
    |s| >= |suffix| && s[|s| - |suffix|..] == suffix
  }

  /** A joined path always ends with the name joined on. */
  lemma JoinEndsWith(dir: string, name: string)
    ensures EndsWith(Join(dir, name), name)
  {
    var p := Join(dir, name);
    if !(|name| > 0 && name[0] == '/') {
      assert p[|p| - |name|..] == name;
    }
  }

  /** A non-empty name without a separator is joined directly inside `dir`. */
  lemma JoinLeaf(dir: string, name: string)
    requires |name| > 0 && '/' !in name
    ensures DirectlyIn(Join(dir, name), dir) && Join(dir, name)[|dir| + 1..] == name
  {
    var p := Join(dir, name);
    assert name[0] in name;
    assert p == dir + "/" + name;
    assert p[..|dir|] == dir;
    assert p[|dir| + 1..] == name;
  }

  /** Appending a suffix without a separator adds none. */
  lemma NoSeparatorAdded(name: string, suffix: string)
    requires '/' !in name && '/' !in suffix
    ensures '/' !in name + suffix && |name + suffix| >= |suffix|
  {
  }

  /**
    The script and template paths as the window builds them:
    `dist / (template_name + ".jsx")` and the same with `.mogrt`.  A
    template name that is not a string cannot be concatenated.  The name is
    never checked, so the paths lie in `dist` only when it holds no
    separator.
  */
  function ExportPaths(dist: string, s: TelopStyle): (r: Option<(string, string)>)
    ensures r.Some? <==> s.templateName.JString?
    ensures r.Some? ==>
      EndsWith(r.value.0, s.templateName.s + ".jsx") && EndsWith(r.value.1, s.templateName.s + ".mogrt")
    ensures r.Some? && '/' !in s.templateName.s ==>
      && DirectlyIn(r.value.0, dist) && r.value.0[|dist| + 1..] == s.templateName.s + ".jsx"
      && DirectlyIn(r.value.1, dist) && r.value.1[|dist| + 1..] == s.templateName.s + ".mogrt"
    ensures r.Some? && |s.templateName.s| > 0 && s.templateName.s[0] == '/' ==>
      r.value == (s.templateName.s + ".jsx", s.templateName.s + ".mogrt")
    ensures r.Some? && !(|s.templateName.s| > 0 && s.templateName.s[0] == '/') ==>
      r.value == (dist + "/" + s.templateName.s + ".jsx", dist + "/" + s.templateName.s + ".mogrt")
    ensures r.Some? ==> exists stem :: r.value == (stem + ".jsx", stem + ".mogrt")
  {
    match s.templateName
    case JString(name) =>
      assert dist + "/" + (name + ".jsx") == dist + "/" + name + ".jsx";
      assert dist + "/" + (name + ".mogrt") == dist + "/" + name + ".mogrt";
      JoinEndsWith(dist, name + ".jsx");
      JoinEndsWith(dist, name + ".mogrt");
      if '/' !in name then
        NoSeparatorAdded(name, ".jsx");
        NoSeparatorAdded(name, ".mogrt");
        JoinLeaf(dist, name + ".jsx");
        JoinLeaf(dist, name + ".mogrt");
        Some((Join(dist, name + ".jsx"), Join(dist, name + ".mogrt")))
      else
        Some((Join(dist, name + ".jsx"), Join(dist, name + ".mogrt")))
    case _ => None
  }

  /**
    An absolute template name, which a loaded style file may carry, sends
    both files outside the output directory.
  */
  lemma AbsoluteTemplateNameEscapes(dist: string, s: TelopStyle)
    requires s.templateName == JString("/tmp/x")
    requires dist != "/tmp"
    ensures ExportPaths(dist, s) == Some(("/tmp/x.jsx", "/tmp/x.mogrt"))
    ensures !DirectlyIn("/tmp/x.jsx", dist) && !DirectlyIn("/tmp/x.mogrt", dist)
  {
    var jsx, mogrt := "/tmp/x.jsx", "/tmp/x.mogrt";
    assert "/tmp/x" + ".jsx" == jsx && "/tmp/x" + ".mogrt" == mogrt;
  }

  /**
    A relative template name with a separator, such as `a/b` or `../x`,
    puts both files below or beside the output directory instead of
    directly in it.
  */
  lemma RelativeTemplateNameLeaves(dist: string, s: TelopStyle)
    requires s.templateName == JString("a/b") || s.templateName == JString("../x")
    ensures var name := s.templateName.s;
      && ExportPaths(dist, s) == Some((dist + "/" + name + ".jsx", dist + "/" + name + ".mogrt"))
      && !DirectlyIn(dist + "/" + name + ".jsx", dist) && !DirectlyIn(dist + "/" + name + ".mogrt", dist)
  {
  }

  /**
    The export paths with the template name required to be a plain file
    stem: a string without a separator.  Whenever it accepts a name it
    agrees with the unchecked construction, and both files lie directly in
    the output directory.
  */
  function SafeExportPaths(dist: string, s: TelopStyle): (r: Option<(string, string)>)
    ensures r.Some? <==> s.templateName.JString? && '/' !in s.templateName.s
    ensures r.Some? ==> r == ExportPaths(dist, s)
    ensures r.Some? ==>
      && DirectlyIn(r.value.0, dist) && r.value.0[|dist| + 1..] == s.templateName.s + ".jsx"
      && DirectlyIn(r.value.1, dist) && r.value.1[|dist| + 1..] == s.templateName.s + ".mogrt"
  {
    if s.templateName.JString? && '/' !in s.templateName.s then ExportPaths(dist, s) else None
  }

  /**
    `generate_jsx`: nothing without a style; otherwise the script is built
    at the export paths.  A template name that is not a string raises;
    any string is accepted, so the files lie in the output directory only
    when the name holds no separator.
  */
  function GenerateJsx(w: Window, dist: string): (r: (Window, Effect))
    ensures r.0 == w
    ensures w.style.None? ==> r.1 == NoEffect
    ensures w.style.Some? && !w.style.value.templateName.JString? ==> r.1 == Uncaught
    ensures w.style.Some? && w.style.value.templateName.JString? ==>
      r.1 == BuildScript(ExportPaths(dist, w.style.value).value.0, ExportPaths(dist, w.style.value).value.1)
    ensures r.1.BuildScript? && '/' !in w.style.value.templateName.s ==>
      DirectlyIn(r.1.jsx, dist) && DirectlyIn(r.1.mogrt, dist)
    ensures w.style.Some? && SafeExportPaths(dist, w.style.value).Some? ==>
      r.1 == BuildScript(SafeExportPaths(dist, w.style.value).value.0, SafeExportPaths(dist, w.style.value).value.1)
  {
    if w.style.None? then (w, NoEffect)
    else
      match ExportPaths(dist, w.style.value)
      case None => (w, Uncaught)
      case Some((jsx, mogrt)) => (w, BuildScript(jsx, mogrt))
  }

  /**
    `run_ae`: nothing without a style; otherwise the script is built and
    the tool run, at the export paths as for `generate_jsx`.
  */
  function RunAe(w: Window, dist: string): (r: (Window, Effect))
    ensures r.0 == w
    ensures w.style.None? ==> r.1 == NoEffect
    ensures w.style.Some? && !w.style.value.templateName.JString? ==> r.1 == Uncaught
    ensures w.style.Some? && w.style.value.templateName.JString? ==>
      r.1 == BuildAndRun(ExportPaths(dist, w.style.value).value.0, ExportPaths(dist, w.style.value).value.1)
    ensures r.1.BuildAndRun? && '/' !in w.style.value.templateName.s ==>
      DirectlyIn(r.1.jsx, dist) && DirectlyIn(r.1.mogrt, dist)
    ensures w.style.Some? && SafeExportPaths(dist, w.style.value).Some? ==>
      r.1 == BuildAndRun(SafeExportPaths(dist, w.style.value).value.0, SafeExportPaths(dist, w.style.value).value.1)
  {
    if w.style.None? then (w, NoEffect)
    else
      match ExportPaths(dist, w.style.value)
      case None => (w, Uncaught)
      case Some((jsx, mogrt)) => (w, BuildAndRun(jsx, mogrt))
  }

  /**
    A current style whose template name is absolute, as a loaded style file
    may carry, makes generating and running write outside the output
    directory.
  */
  lemma ExportEscapes(w: Window, dist: string)
    requires w.style.Some? && w.style.value.templateName == JString("/tmp/x")
    requires dist != "/tmp"
    ensures GenerateJsx(w, dist) == (w, BuildScript("/tmp/x.jsx", "/tmp/x.mogrt"))
    ensures RunAe(w, dist) == (w, BuildAndRun("/tmp/x.jsx", "/tmp/x.mogrt"))
    ensures !DirectlyIn("/tmp/x.jsx", dist) && !DirectlyIn("/tmp/x.mogrt", dist)
  {
    AbsoluteTemplateNameEscapes(dist, w.style.value);
  }

  /** The user's actions, each with the inputs its dialogs and files supply. */
  datatype Action =
    | Open(paths: seq<string>, imread: string -> Option<ImageShape>)
    | UpdatePreview(decoded: Option<JsonValue>)
    | Save(chosen: string)
    | Load(chosen: string, decoded: Option<JsonValue>)
    | Generate
    | RunExport

  /**
    `dist` is the output directory, `dist` beside the program's own files;
    where that is depends on the installation, so it is a parameter.
  */
  function Apply(w: Window, a: Action, dist: string): (Window, Effect) {
    match a
    case Open(paths, imread) => OpenImage(w, paths, imread)
    case UpdatePreview(decoded) => UpdateFromEditor(w, decoded)
    case Save(chosen) => SaveStyle(w, chosen)
    case Load(chosen, decoded) => LoadStyle(w, chosen, decoded)
    case Generate => GenerateJsx(w, dist)
    case RunExport => RunAe(w, dist)
  }

  function Session(w: Window, actions: seq<Action>, dist: string): Window
    decreases |actions|
  {
    if |actions| == 0 then w else Session(Apply(w, actions[0], dist).0, actions[1..], dist)
  }

  /** Once a style is current it stays current: no sequence of actions clears it. */
  lemma {:induction false} StyleNeverCleared(w: Window, actions: seq<Action>, dist: string)
    requires w.style.Some?
    ensures Session(w, actions, dist).style.Some?
    decreases |actions|
  {
    if |actions| > 0 {
      StyleNeverCleared(Apply(w, actions[0], dist).0, actions[1..], dist);
    }
  }

  /** The actions that may give a style-less window a style. */
  predicate SetsStyle(a: Action) {
    a.Open? || a.UpdatePreview? || a.Load?
  }

  /**
    A window without a style gains one only through an open, an editor
    update or a load: saving, generating and running never set one.
  */
  lemma {:induction false} StyleComesFrom(w: Window, actions: seq<Action>, dist: string)
    requires w.style.None?
    ensures Session(w, actions, dist).style.Some? ==>
      exists i :: 0 <= i < |actions| && SetsStyle(actions[i])
    decreases |actions|
  {
    if |actions| > 0 {
      var next := Apply(w, actions[0], dist).0;
      if next.style.None? {
        StyleComesFrom(next, actions[1..], dist);
        if Session(w, actions, dist).style.Some? {
          var i :| 0 <= i < |actions[1..]| && SetsStyle(actions[1..][i]);
          assert actions[i + 1] == actions[1..][i];
        }
      } else {
        assert SetsStyle(actions[0]);
      }
    }
  }

  /**
    The freshly built window has no style; a session from it ends with one
    only when it opened an image, updated from the editor or loaded a file.
  */
  lemma FromStart(actions: seq<Action>, dist: string)
    ensures Start.style.None?
    ensures Session(Start, actions, dist).style.Some? ==>
      exists i :: 0 <= i < |actions| && SetsStyle(actions[i])
  {
    StyleComesFrom(Start, actions, dist);
  }

  /** Without a style, saving, generating and running leave the window and the outside world alone. */
  lemma ActionsNeedStyle(w: Window, a: Action, dist: string)
    requires w.style.None?
    requires a.Save? || a.Generate? || a.RunExport?
    ensures Apply(w, a, dist) == (w, NoEffect)
  {
  }

  /** Loading the document a save wrote gives back the style that was saved. */
  lemma SaveThenLoad(w: Window, chosen: string, later: Window)
    requires w.style.Some? && chosen != ""
    ensures var doc := SaveStyle(w, chosen).1.document;
      LoadStyle(later, chosen, Some(doc)).0.style == w.style
  {
  }

  /** The canvas and anchor the painter reads from the style inferred for `shape`. */
  lemma InferredGeometry(shape: ImageShape)
    ensures var s := StyleFor(shape);
      && CanvasOf(s) == Some(Canvas(shape.width, shape.height, Transparent))
      && AnchorOf(s.position, DrawnText(s)) == Some(Anchor(shape.width / 2, 9 * shape.height / 10, ""))
  {
    var s := StyleFor(shape);
    var x, y := shape.width / 2, BaselineRow(shape.height);
    assert InCIntRange(x) && InCIntRange(y) && InCIntRange(shape.width) && InCIntRange(shape.height);
    var position := s.position.members;
    assert DistinctKeys(position);
    GetDistinct(position, 0);
    GetDistinct(position, 1);
    assert IntMember(s.position, "x") == Some(x) && IntMember(s.position, "y") == Some(y);
    var comp := s.comp.members;
    assert DistinctKeys(comp);
    GetDistinct(comp, 0);
    GetDistinct(comp, 1);
  }

  /** The font and pens the painter reads from the style inferred for `shape`. */
  lemma InferredPens(shape: ImageShape)
    ensures var s := StyleFor(shape);
      && FontOf(s) == Some(Font(DefaultFont, 100, -25 as real))
      && StrokeEntries(s.strokes) == Some([InferredStroke])
      && StrokePen(InferredStroke) == Some(OutlinePen(RgbaF(0.0, 0.0, 0.0, 1.0), 20.0))
      && FillPen(s) == Some(PlainPen(RgbaF(1.0, 1.0, 1.0, 1.0)))
  {
    assert DistinctKeys(InferredStroke.members);
    GetDistinct(InferredStroke.members, 0);
  }

  /**
    The style inferred from a W x H image draws on a W x H canvas: one
    black outline of width 20, then the white fill, both with the empty
    string at (W div 2, 9H div 10) in the default font.
  */
  lemma InferredStyleRenders(shape: ImageShape)
    ensures var w := shape.width;
      var h := shape.height;
      var font := Font(DefaultFont, 100, -25 as real);
      Render(StyleFor(shape)) == Ok([
        Canvas(w, h, Transparent),
        Text(w / 2, 9 * h / 10, "", font, OutlinePen(RgbaF(0.0, 0.0, 0.0, 1.0), 20.0)),
        Text(w / 2, 9 * h / 10, "", font, PlainPen(RgbaF(1.0, 1.0, 1.0, 1.0)))])
  {
    var s := StyleFor(shape);
    InferredGeometry(shape);
    InferredPens(shape);
    var font := Font(DefaultFont, 100, -25 as real);
    var pen := OutlinePen(RgbaF(0.0, 0.0, 0.0, 1.0), 20.0);
    assert Renderable(s);
    assert StrokePens([InferredStroke]) == [pen];
    var a := Anchor(shape.width / 2, 9 * shape.height / 10, "");
    var fill := PlainPen(RgbaF(1.0, 1.0, 1.0, 1.0));
    var canvas := Canvas(shape.width, shape.height, Transparent);
    assert Layers(s) == Compose(canvas, a, font, [pen], fill);
    SingleStroke(canvas, a, font, pen, fill);
  }

  /** With one stroke pen the layering is the canvas, that outline, then the fill. */
  lemma SingleStroke(canvas: DrawCmd, a: Anchor, font: Font, pen: Pen, fill: Pen)
    ensures Compose(canvas, a, font, [pen], fill)
         == [canvas, Text(a.x, a.y, a.text, font, pen), Text(a.x, a.y, a.text, font, fill)]
  {
    assert Outlines(a, font, [pen]) == [Text(a.x, a.y, a.text, font, pen)];
  }

  /**
    Opening a decodable image never shows an error: the inferred style is
    current and the preview shows its layers, anchored inside the canvas
    whenever the image has at least one pixel.
  */
  lemma OpenDecodableImage(w: Window, paths: seq<string>, imread: string -> Option<ImageShape>)
    requires |paths| > 0 && imread(paths[0]).Some?
    ensures var shape := imread(paths[0]).value;
      var r := OpenImage(w, paths, imread);
      && r.1 == NoEffect
      && r.0.style == Some(StyleFor(shape))
      && r.0.preview == Some(Render(StyleFor(shape)).value)
      && |r.0.preview.value| == 3 && r.0.preview.value[0].Canvas? && r.0.preview.value[1].Text?
      && (shape.width >= 1 && shape.height >= 1 ==>
            var canvas, anchor := r.0.preview.value[0], r.0.preview.value[1];
            0 <= anchor.x < canvas.width && 0 <= anchor.y < canvas.height)
  {
    InferredStyleRenders(imread(paths[0]).value);
  }

  /** The 1920 x 1080 example: canvas 1920 x 1080, anchor (960, 972). */
  lemma FullHdExample(w: Window, paths: seq<string>, imread: string -> Option<ImageShape>)
    requires |paths| > 0 && imread(paths[0]) == Some(ImageShape(1080, 1920))
    ensures var preview := OpenImage(w, paths, imread).0.preview;
      && preview.Some? && |preview.value| == 3
      && preview.value[0] == Canvas(1920, 1080, Transparent)
      && preview.value[1].Text? && preview.value[1].x == 960 && preview.value[1].y == 972
      && preview.value[2].Text? && preview.value[2].x == 960 && preview.value[2].y == 972
  {
    OpenDecodableImage(w, paths, imread);
    InferredStyleRenders(ImageShape(1080, 1920));
  }
}

=== FILE: models.dfy ===
/**
  The telop style record and its save/load contract.

  `TelopStyle` is an eleven-field record.  Saving turns it into a JSON
  object whose members are the fields in declaration order; loading
  decodes a JSON document and passes the decoded object to the record's
  constructor as keyword arguments.  The constructor checks the key set and
  nothing else, so every field holds an arbitrary JSON value.

  The text layer (`json.dumps` formatting and `json.loads` parsing) is not
  part of the model: loading starts from the decoder's result, an
  `Option<JsonValue>` that is `None` when the text is not well-formed JSON.
*/
module Models {
  import opened Base
  import opened Json

  /** An RGB colour with float channels; the channels are not range-checked. */
  datatype Color = Color(r: real, g: real, b: real) {

    /** The channel list `[r, g, b]`. */
    function ToList(): seq<JsonValue> {
      [JFloat(r), JFloat(g), JFloat(b)]
    }
  }

  datatype TelopStyle = TelopStyle(
    text: JsonValue,
    fontName: JsonValue,
    fontSize: JsonValue,
    tracking: JsonValue,
    position: JsonValue,
    fill: JsonValue,
    strokes: JsonValue,
    shadow: JsonValue,
    plate: JsonValue,
    comp: JsonValue,
    templateName: JsonValue)

  /** The record's field names as they appear in the saved document, in declaration order. */
  const FieldNames: seq<string> :=
    ["text", "font_name", "font_size", "tracking", "position", "fill",
     "strokes", "shadow", "plate", "comp", "template_name"]

  const FieldSet: set<string> := set k | k in FieldNames

  /** The field values of `s`, in the order of `FieldNames`. */
  function Values(s: TelopStyle): seq<JsonValue> {
    [s.text, s.fontName, s.fontSize, s.tracking, s.position, s.fill,
     s.strokes, s.shadow, s.plate, s.comp, s.templateName]
  }

  /** Why loading a style fails. */
  datatype LoadError =
    | MalformedText                   // the decoder rejected the text
    | NotAMapping                     // the document is not an object
    | UnexpectedKeyword(name: string) // a key that is not a field name
    | MissingArguments(names: seq<string>)

  /** No field name is repeated. */
  lemma FieldNamesDistinct()
    ensures forall i, j :: 0 <= i < j < |FieldNames| ==> FieldNames[i] != FieldNames[j]
  {
  }

  /** The record built from eleven values given in the order of `FieldNames`. */
  function FromValues(vals: seq<JsonValue>): (s: TelopStyle)
    requires |vals| == |FieldNames|
    ensures Values(s) == vals
  {
    TelopStyle(vals[0], vals[1], vals[2], vals[3], vals[4], vals[5],
               vals[6], vals[7], vals[8], vals[9], vals[10])
  }

  /** `to_json`: the record as a JSON object, one member per field. */
  function ToJson(s: TelopStyle): (v: JsonValue)
    ensures v.JObject?
    ensures KeyOrder(v.members) == FieldNames
    ensures forall i :: 0 <= i < |FieldNames| ==> Get(v.members, FieldNames[i]) == Some(Values(s)[i])
  {
    var vals := Values(s);
    var members := seq(|FieldNames|, i requires 0 <= i < |FieldNames| => (FieldNames[i], vals[i]));
    FieldNamesDistinct();
    assert DistinctKeys(members);
    forall i | 0 <= i < |FieldNames|
      ensures Get(members, FieldNames[i]) == Some(vals[i])
    {
      GetDistinct(members, i);
    }
    JObject(members)
  }

  /** The keys of `members` that are not field names, in document order. */
  function UnknownKeys(members: Members): (extra: seq<string>)
    ensures forall k :: k in extra <==> k in Keys(members) && k !in FieldSet
  {
    if |members| == 0 then []
    else
      var rest := members[1..];
      assert Keys(members) == {members[0].0} + Keys(rest) by {
        assert forall i :: 0 < i < |members| ==> members[i] == rest[i - 1];
      }
      if members[0].0 in FieldSet then UnknownKeys(rest)
      else [members[0].0] + UnknownKeys(rest)
  }

  /** The names in `names` that are absent from `present`, in their original order. */
  function MissingNames(names: seq<string>, present: set<string>): (missing: seq<string>)
    ensures forall k :: k in missing <==> k in names && k !in present
  {
    if |names| == 0 then []
    else if names[0] in present then MissingNames(names[1..], present)
    else [names[0]] + MissingNames(names[1..], present)
  }

  /** The record whose every field holds the value its name maps to in `m`. */
  function FieldsOf(m: Members): (s: TelopStyle)
    requires FieldSet <= Keys(m)
    ensures forall i :: 0 <= i < |FieldNames| ==> Get(m, FieldNames[i]) == Some(Values(s)[i])
  {
    assert forall i :: 0 <= i < |FieldNames| ==> FieldNames[i] in FieldSet;
    FromValues(seq(|FieldNames|, i requires 0 <= i < |FieldNames| => Get(m, FieldNames[i]).value))
  }

  /** With no unknown key, every key is a field name. */
  lemma NoUnknownKeys(m: Members)
    requires |UnknownKeys(m)| == 0
    ensures Keys(m) <= FieldSet
  {
    forall k | k in Keys(m) ensures k in FieldSet {
      assert k !in UnknownKeys(m);
    }
  }

  /** With no missing name, every field name is a key. */
  lemma NoMissingNames(m: Members)
    requires |MissingNames(FieldNames, Keys(m))| == 0
    ensures FieldSet <= Keys(m)
  {
    forall k | k in FieldSet ensures k in Keys(m) {
      assert k !in MissingNames(FieldNames, Keys(m));
    }
  }

  /** The field names absent from `m`, in declaration order. */
  function MissingFields(m: Members): (missing: seq<string>)
    ensures forall k :: k in missing <==> k in FieldSet && k !in Keys(m)
    ensures |missing| == 0 <==> FieldSet <= Keys(m)
  {
    var missing := MissingNames(FieldNames, Keys(m));
    if |missing| == 0 then NoMissingNames(m); missing
    else assert missing[0] in FieldSet && missing[0] !in Keys(m); missing
  }

  /** The second check of keyword construction, once every key is known: no field may be missing. */
  function RequireAll(m: Members): (r: Result<TelopStyle, LoadError>)
    requires Keys(m) <= FieldSet
    ensures r.Ok? <==> FieldSet <= Keys(m)
    ensures r.Err? ==> r.error.MissingArguments?
    ensures r.Err? ==> forall k :: k in r.error.names <==> k in FieldSet && k !in Keys(m)
    ensures r.Ok? ==> forall i :: 0 <= i < |FieldNames| ==> Get(m, FieldNames[i]) == Some(Values(r.value)[i])
  {
    var missing := MissingFields(m);
    if |missing| > 0 then Err(MissingArguments(missing)) else Ok(FieldsOf(m))
  }

  /**
    Keyword construction from a decoded object's members.  Python rejects
    an unexpected keyword before it reports missing ones.
  */
  function ConstructFrom(m: Members): (r: Result<TelopStyle, LoadError>)
    ensures r.Ok? <==> Keys(m) == FieldSet
    ensures r.Err? && r.error.UnexpectedKeyword? <==> !(Keys(m) <= FieldSet)
    ensures r.Err? && r.error.MissingArguments? <==> Keys(m) < FieldSet
    ensures r.Err? && r.error.UnexpectedKeyword? ==> r.error.name in Keys(m) && r.error.name !in FieldSet
    ensures r.Err? && r.error.MissingArguments? ==>
      forall k :: k in r.error.names <==> k in FieldSet && k !in Keys(m)
    ensures r.Ok? ==> forall i :: 0 <= i < |FieldNames| ==> Get(m, FieldNames[i]) == Some(Values(r.value)[i])
  {
    var extra := UnknownKeys(m);
    if |extra| > 0 then
      assert extra[0] in extra;
      Err(UnexpectedKeyword(extra[0]))
    else
      NoUnknownKeys(m);
      RequireAll(m)
  }

  /** `TelopStyle(**obj)`: keyword construction from a decoded document. */
  function Construct(doc: JsonValue): (r: Result<TelopStyle, LoadError>)
    ensures r.Ok? <==> doc.JObject? && Keys(doc.members) == FieldSet
    ensures !doc.JObject? ==> r == Err(NotAMapping)
    ensures doc.JObject? && !(Keys(doc.members) <= FieldSet) ==> r.Err? && r.error.UnexpectedKeyword?
    ensures doc.JObject? && Keys(doc.members) < FieldSet ==> r.Err? && r.error.MissingArguments?
    ensures r.Err? && r.error.UnexpectedKeyword? ==>
      r.error.name in Keys(doc.members) && r.error.name !in FieldSet
    ensures r.Err? && r.error.MissingArguments? ==>
      Keys(doc.members) < FieldSet &&
      forall k :: k in r.error.names <==> k in FieldSet && k !in Keys(doc.members)
    ensures r.Ok? ==> forall i :: 0 <= i < |FieldNames| ==>
      Get(doc.members, FieldNames[i]) == Some(Values(r.value)[i])
  {
    if doc.JObject? then ConstructFrom(doc.members) else Err(NotAMapping)
  }

  /** `from_json`: decode, then construct; no field is type- or range-checked. */
  function FromJson(decoded: Option<JsonValue>): (r: Result<TelopStyle, LoadError>)
    ensures decoded.None? ==> r == Err(MalformedText)
    ensures r.Ok? <==> decoded.Some? && decoded.value.JObject? && Keys(decoded.value.members) == FieldSet
  {
    match decoded
    case None => Err(MalformedText)
    case Some(doc) => Construct(doc)
  }

  /** The saved document's key set is exactly the field names. */
  lemma SavedKeys(s: TelopStyle)
    ensures Keys(ToJson(s).members) == FieldSet
  {
    var members := ToJson(s).members;
    forall k | k in Keys(members) ensures k in FieldSet {
      var i :| 0 <= i < |members| && members[i].0 == k;
      assert KeyOrder(members)[i] == k;
    }
    forall k | k in FieldSet ensures k in Keys(members) {
      var i :| 0 <= i < |FieldNames| && FieldNames[i] == k;
      assert KeyOrder(members)[i] == k;
    }
  }

  /** Saving and loading gives back the same record, `strokes` list included. */
  lemma RoundTrip(s: TelopStyle)
    ensures FromJson(Some(ToJson(s))) == Ok(s)
    ensures FromJson(Some(ToJson(s))).value.strokes == s.strokes
  {
    SavedKeys(s);
    var r := Construct(ToJson(s));
    assert Values(r.value) == Values(s);
  }

  /**
    Loading then saving keeps the document's content: the saved object has
    the same key set as the loaded one and every key maps to the same value.
  */
  lemma LoadThenSave(doc: JsonValue)
    ensures FromJson(Some(doc)).Ok? ==>
      var out := ToJson(FromJson(Some(doc)).value).members;
      Keys(out) == Keys(doc.members) && forall k :: Get(out, k) == Get(doc.members, k)
  {
    if FromJson(Some(doc)).Ok? {
      var s := FromJson(Some(doc)).value;
      SavedKeys(s);
      var out := ToJson(s).members;
      forall k ensures Get(out, k) == Get(doc.members, k) {
        if k in FieldSet {
          var i :| 0 <= i < |FieldNames| && FieldNames[i] == k;
          assert Get(out, k) == Some(Values(s)[i]);
          assert Get(doc.members, k) == Some(Values(s)[i]);
        }
      }
    }
  }
}

=== FILE: preview.dfy ===
/**
  The preview painter, abstracted to the list of drawing commands it issues.

  Rendering a style creates a transparent canvas of the composition's size,
  then draws the text once per stroke entry, walking the stroke list from
  its LAST entry to its first, and finally draws the text once more with
  the fill colour.  Every text draw uses the same font, anchor and string.
  The plate, the shadow and the fill's `enabled` flag are never read.

  Each field is read the way the painter reads it; a value of the wrong
  shape makes the painter raise, and the model reports the step that failed.
*/
module Preview {
  import opened Base
  import opened Json
  import opened Models

  /** A colour as `QColor.fromRgbF` receives it; alpha defaults to 1.0. */
  datatype RgbaF = RgbaF(r: real, g: real, b: real, a: real)

  datatype Pen =
    | OutlinePen(color: RgbaF, width: real) // solid line, round cap, round join
    | PlainPen(color: RgbaF)                // `QPen(color)` with Qt's defaults

  /** `QFont(family, pointSize)` with absolute letter spacing. */
  datatype Font = Font(family: string, pointSize: int, letterSpacing: real)

  datatype Background = Transparent

  datatype DrawCmd =
    | Canvas(width: int, height: int, background: Background)
    | Text(x: int, y: int, text: string, font: Font, pen: Pen)

  /** Where the painter raises, in the order it reaches each step. */
  datatype PreviewError =
    | BadCanvasSize // comp["width"], comp["height"] or the image constructor
    | BadFont       // font_name / font_size for the font constructor
    | BadTracking   // the letter spacing
    | NotIterable   // reversed(strokes)
    | BadStroke     // stroke["color"] / stroke["width"] for the pen
    | BadAnchor     // position["x"], position["y"] and the text for drawText
    | BadFill       // fill["color"] for the fill pen

  /** The text anchor and the string every draw uses. */
  datatype Anchor = Anchor(x: int, y: int, text: string)

  /** The range of a C `int`; PySide raises `OverflowError` for an integer outside it. */
  predicate InCIntRange(i: int) {
    -0x8000_0000 <= i < 0x8000_0000
  }

  /** A value Python accepts where Qt takes an integer. */
  function IntOf(v: JsonValue): Option<int> {
    if v.JInt? && InCIntRange(v.i) then Some(v.i) else None
  }

  /** A value Python accepts where Qt takes a float. */
  function RealOf(v: JsonValue): Option<real> {
    match v
    case JInt(i) => Some(i as real)
    case JFloat(f) => Some(f)
    case _ => None
  }

  /** `v[key]` where `v` must be a dict holding `key`. */
  function Member(v: JsonValue, key: string): Option<JsonValue> {
    if v.JObject? then Get(v.members, key) else None
  }

  function IntMember(v: JsonValue, key: string): Option<int> {
    match Member(v, key)
    case None => None
    case Some(m) => IntOf(m)
  }

  /** `QColor.fromRgbF(*channels)`: three or four float arguments. */
  function RgbF(channels: JsonValue): Option<RgbaF> {
    if !channels.JArray? then None
    else
      var cs := channels.items;
      if !(|cs| == 3 || |cs| == 4) then None
      else if RealOf(cs[0]).None? || RealOf(cs[1]).None? || RealOf(cs[2]).None? then None
      else if |cs| == 4 && RealOf(cs[3]).None? then None
      else
        var alpha := if |cs| == 4 then RealOf(cs[3]).value else 1.0;
        Some(RgbaF(RealOf(cs[0]).value, RealOf(cs[1]).value, RealOf(cs[2]).value, alpha))
  }

  function Need<T>(o: Option<T>, e: PreviewError): (r: Result<T, PreviewError>)
    ensures r.Ok? <==> o.Some?
    ensures r.Ok? ==> r.value == o.value
    ensures r.Err? ==> r.error == e
  {
    match o
    case Some(x) => Ok(x)
    case None => Err(e)
  }

  /** The canvas `QImage(comp["width"], comp["height"])`. */
  function CanvasOf(style: TelopStyle): Option<DrawCmd> {
    var w := IntMember(style.comp, "width");
    var h := IntMember(style.comp, "height");
    if w.Some? && h.Some? then Some(Canvas(w.value, h.value, Transparent)) else None
  }

  /** The font built from `font_name`, `font_size` and `tracking`. */
  function FontOf(style: TelopStyle): Option<Font> {
    if style.fontName.JString? && IntOf(style.fontSize).Some? && RealOf(style.tracking).Some? then
      Some(Font(style.fontName.s, IntOf(style.fontSize).value, RealOf(style.tracking).value))
    else None
  }

  /** `style.text or ""`: any falsy text is drawn as the empty string. */
  function DrawnText(style: TelopStyle): JsonValue {
    if Truthy(style.text) then style.text else JString("")
  }

  /**
    The entries `reversed(strokes)` walks: a list's items, a string's
    characters, a dict's keys.  A character or key is itself a string, so
    the stroke lookup on it raises.  (A member list that repeats a name
    yields that key twice here; as no key yields a pen, the outcome is the
    dict's.)  Any other value is not iterable.
  */
  function StrokeEntries(strokes: JsonValue): Option<seq<JsonValue>> {
    match strokes
    case JArray(items) => Some(items)
    case JString(s) => Some(Characters(s))
    case JObject(members) => Some(KeyStrings(members))
    case _ => None
  }

  /** A string's characters, each a one-character string. */
  function Characters(s: string): (cs: seq<JsonValue>)
    ensures |cs| == |s|
    ensures forall i :: 0 <= i < |s| ==> cs[i] == JString([s[i]])
  {
    seq(|s|, i requires 0 <= i < |s| => JString([s[i]]))
  }

  /** An object's member names, each as a string value. */
  function KeyStrings(members: Members): (ks: seq<JsonValue>)
    ensures |ks| == |members|
    ensures forall i :: 0 <= i < |members| ==> ks[i] == JString(members[i].0)
  {
    seq(|members|, i requires 0 <= i < |members| => JString(members[i].0))
  }

  /** The pen for one stroke entry: its colour and width. */
  function StrokePen(stroke: JsonValue): Option<Pen> {
    var color := Member(stroke, "color");
    var width := Member(stroke, "width");
    if color.Some? && RgbF(color.value).Some? && width.Some? && RealOf(width.value).Some? then
      Some(OutlinePen(RgbF(color.value).value, RealOf(width.value).value))
    else None
  }

  /** `drawText(position["x"], position["y"], text)` arguments. */
  function AnchorOf(position: JsonValue, text: JsonValue): Option<Anchor> {
    var x := IntMember(position, "x");
    var y := IntMember(position, "y");
    if x.Some? && y.Some? && text.JString? then Some(Anchor(x.value, y.value, text.s)) else None
  }

  function FillPen(style: TelopStyle): Option<Pen> {
    var color := Member(style.fill, "color");
    if color.Some? && RgbF(color.value).Some? then Some(PlainPen(RgbF(color.value).value)) else None
  }

  /** Every field the painter reads has the shape it needs. */
  predicate Renderable(style: TelopStyle) {
    && CanvasOf(style).Some?
    && FontOf(style).Some?
    && StrokeEntries(style.strokes).Some?
    && (forall e :: e in StrokeEntries(style.strokes).value ==> StrokePen(e).Some?)
    && AnchorOf(style.position, DrawnText(style)).Some?
    && FillPen(style).Some?
  }

  /** The pens of the stroke entries, in list order. */
  function StrokePens(entries: seq<JsonValue>): (pens: seq<Pen>)
    requires forall e :: e in entries ==> StrokePen(e).Some?
    ensures |pens| == |entries|
  {
    seq(|entries|, i requires 0 <= i < |entries| => StrokePen(entries[i]).value)
  }

  /** One outline draw per pen, taken from the end of the list to its start. */
  function Outlines(a: Anchor, font: Font, pens: seq<Pen>): (draws: seq<DrawCmd>)
    ensures |draws| == |pens|
  {
    var n := |pens|;
    seq(n, k requires 0 <= k < n => Text(a.x, a.y, a.text, font, pens[n - 1 - k]))
  }

  /**
    The stroke loop: one outline draw per entry, from the last entry to the
    first.  The anchor is read again by every draw.
  */
  function OutlineDraws(entries: seq<JsonValue>, position: JsonValue, text: JsonValue, font: Font)
    : (r: Result<seq<DrawCmd>, PreviewError>)
    ensures r.Ok? <==>
      (forall e :: e in entries ==> StrokePen(e).Some?) &&
      (|entries| > 0 ==> AnchorOf(position, text).Some?)
    ensures r.Ok? ==> |r.value| == |entries|
    ensures r.Ok? && AnchorOf(position, text).Some? ==>
      r.value == Outlines(AnchorOf(position, text).value, font, StrokePens(entries))
    decreases |entries|
  {
    if |entries| == 0 then Ok([])
    else
      var init := entries[..|entries| - 1];
      var pen :- Need(StrokePen(entries[|entries| - 1]), BadStroke);
      var a :- Need(AnchorOf(position, text), BadAnchor);
      var rest :- OutlineDraws(init, position, text, font);
      EntriesOfInit(entries);
      var draws := [Text(a.x, a.y, a.text, font, pen)] + rest;
      PensOfInit(entries);
      OutlinesOfLast(a, font, StrokePens(entries));
      Ok(draws)
  }

  /** A non-empty list is its initial part followed by its last entry. */
  lemma EntriesOfInit(entries: seq<JsonValue>)
    requires |entries| > 0
    ensures forall e :: e in entries <==> e == entries[|entries| - 1] || e in entries[..|entries| - 1]
  {
    assert entries == entries[..|entries| - 1] + [entries[|entries| - 1]];
  }

  /** The pens of the initial part of an entry list are the initial part of its pens. */
  lemma PensOfInit(entries: seq<JsonValue>)
    requires |entries| > 0
    requires forall e :: e in entries ==> StrokePen(e).Some?
    ensures forall e :: e in entries[..|entries| - 1] ==> StrokePen(e).Some?
    ensures StrokePens(entries[..|entries| - 1]) == StrokePens(entries)[..|entries| - 1]
  {
    EntriesOfInit(entries);
  }

  /** The outlines of a non-empty pen list: the last pen's draw, then the outlines of the others. */
  lemma OutlinesOfLast(a: Anchor, font: Font, pens: seq<Pen>)
    requires |pens| > 0
    ensures Outlines(a, font, pens)
         == [Text(a.x, a.y, a.text, font, pens[|pens| - 1])] + Outlines(a, font, pens[..|pens| - 1])
  {
    var n := |pens|;
    var rest := Outlines(a, font, pens[..n - 1]);
    assert forall k :: 1 <= k < n ==> Outlines(a, font, pens)[k] == rest[k - 1];
  }

  /**
    The canvas, then one outline draw per stroke pen taken from the end of
    the list to its start, then the fill draw; all at one anchor and font.
  */
  function Compose(canvas: DrawCmd, a: Anchor, font: Font, pens: seq<Pen>, fill: Pen): seq<DrawCmd> {
    [canvas] + Outlines(a, font, pens) + [Text(a.x, a.y, a.text, font, fill)]
  }

  /** The reference layering of a renderable style. */
  function Layers(style: TelopStyle): seq<DrawCmd>
    requires Renderable(style)
  {
    Compose(CanvasOf(style).value, AnchorOf(style.position, DrawnText(style)).value, FontOf(style).value,
            StrokePens(StrokeEntries(style.strokes).value), FillPen(style).value)
  }

  /**
    `TelopPreview.update_style`: the commands issued for `style`, in the
    order the painter issues them, or the step at which it raises.
  */
  function Render(style: TelopStyle): (r: Result<seq<DrawCmd>, PreviewError>)
    ensures r.Ok? <==> Renderable(style)
    ensures r.Ok? ==> r.value == Layers(style)
  {
    var text := DrawnText(style);
    if CanvasOf(style).None? then Err(BadCanvasSize)
    else if !(style.fontName.JString? && IntOf(style.fontSize).Some?) then Err(BadFont)
    else if FontOf(style).None? then Err(BadTracking)
    else if StrokeEntries(style.strokes).None? then Err(NotIterable)
    else
      var entries := StrokeEntries(style.strokes).value;
      var font := FontOf(style).value;
      var outlines := OutlineDraws(entries, style.position, text, font);
      if outlines.Err? then Err(outlines.error)
      else if FillPen(style).None? then Err(BadFill)
      else if AnchorOf(style.position, text).None? then Err(BadAnchor)
      else
        var a := AnchorOf(style.position, text).value;
        var cmds := [CanvasOf(style).value] + outlines.value + [Text(a.x, a.y, a.text, font, FillPen(style).value)];
        assert cmds == Layers(style);
        Ok(cmds)
  }

  /**
    The layering promised by the painter: a transparent canvas of the
    composition's size comes first and is the only canvas; then exactly one
    text draw per stroke entry plus one fill draw, all at the same anchor
    with the same string and font; entry i is drawn at position n - i, so a
    later-listed stroke is painted before (beneath) an earlier-listed one;
    the fill draw is last.
  */
  lemma LayerOrder(style: TelopStyle)
    requires Renderable(style)
    ensures var cmds := Layers(style);
      var comp := style.comp;
      var n := |StrokeEntries(style.strokes).value|;
      var a := AnchorOf(style.position, DrawnText(style)).value;
      && |cmds| == n + 2
      && cmds[0] == Canvas(IntMember(comp, "width").value, IntMember(comp, "height").value, Transparent)
      && (forall k :: 1 <= k < |cmds| ==> cmds[k] == Text(a.x, a.y, a.text, FontOf(style).value, cmds[k].pen))
      && (forall i :: 0 <= i < n ==>
            cmds[n - i].pen == StrokePen(StrokeEntries(style.strokes).value[i]).value)
      && cmds[n + 1].pen == FillPen(style).value
  {
    var entries := StrokeEntries(style.strokes).value;
    var pens := StrokePens(entries);
    var canvas, a, font, fill :=
      CanvasOf(style).value, AnchorOf(style.position, DrawnText(style)).value, FontOf(style).value, FillPen(style).value;
    var cmds := Layers(style);
    assert cmds == Compose(canvas, a, font, pens, fill);
    ComposeOrder(canvas, a, font, pens, fill);
    assert canvas == Canvas(IntMember(style.comp, "width").value, IntMember(style.comp, "height").value, Transparent);
    forall i | 0 <= i < |entries| ensures cmds[|entries| - i].pen == StrokePen(entries[i]).value {
      assert pens[i] == StrokePen(entries[i]).value;
    }
  }

  lemma ComposeOrder(canvas: DrawCmd, a: Anchor, font: Font, pens: seq<Pen>, fill: Pen)
    ensures var cmds := Compose(canvas, a, font, pens, fill);
      var n := |pens|;
      && |cmds| == n + 2
      && cmds[0] == canvas
      && (forall k :: 1 <= k < |cmds| ==> cmds[k] == Text(a.x, a.y, a.text, font, cmds[k].pen))
      && (forall i :: 0 <= i < n ==> cmds[n - i].pen == pens[i])
      && cmds[n + 1].pen == fill
  {
    var n := |pens|;
    var outlines := Outlines(a, font, pens);
    var cmds := Compose(canvas, a, font, pens, fill);
    assert forall k :: 1 <= k <= n ==> cmds[k] == outlines[k - 1];
  }

  /**
    The plate, the shadow and every member of `fill` other than its colour
    are never read: changing them changes nothing the painter does.
  */
  lemma PlateShadowAndFillFlagIgnored(style: TelopStyle, plate: JsonValue, shadow: JsonValue, fill: JsonValue)
    requires Member(fill, "color") == Member(style.fill, "color")
    ensures Render(style.(plate := plate, shadow := shadow, fill := fill)) == Render(style)
  {
    var other := style.(plate := plate, shadow := shadow, fill := fill);
    assert FillPen(other) == FillPen(style);
    assert Renderable(other) <==> Renderable(style);
    if Renderable(style) {
      assert Layers(other) == Layers(style);
    }
  }

  /**
    Strokes given as a non-empty string or dict are iterated, and the
    painter raises at the first entry's colour lookup; any other value that
    is not a list cannot be iterated at all.
  */
  lemma NonListStrokes(style: TelopStyle)
    requires CanvasOf(style).Some? && FontOf(style).Some?
    ensures ((style.strokes.JString? && |style.strokes.s| > 0) ||
             (style.strokes.JObject? && |style.strokes.members| > 0)) ==>
      Render(style) == Err(BadStroke)
    ensures ((style.strokes.JString? && |style.strokes.s| == 0) ||
             (style.strokes.JObject? && |style.strokes.members| == 0)) ==>
      Render(style) == Render(style.(strokes := JArray([])))
    ensures !(style.strokes.JArray? || style.strokes.JString? || style.strokes.JObject?) ==>
      Render(style) == Err(NotIterable)
  {
    var entries := StrokeEntries(style.strokes);
    if entries.Some? && |entries.value| > 0 && !style.strokes.JArray? {
      var last := entries.value[|entries.value| - 1];
      assert last.JString?;
      assert StrokePen(last).None?;
      assert OutlineDraws(entries.value, style.position, DrawnText(style), FontOf(style).value) == Err(BadStroke);
    }
    if entries.Some? && |entries.value| == 0 {
      assert StrokeEntries(JArray([])) == entries;
    }
  }

  /**
    An integer outside the C `int` range where Qt takes an `int` makes the
    painter raise: for the canvas size and for the point size.
  */
  lemma OverflowingIntegersFail(style: TelopStyle, n: int)
    requires !InCIntRange(n)
    ensures Render(style.(comp := JObject([("width", JInt(n)), ("height", JInt(1))]))) == Err(BadCanvasSize)
    ensures CanvasOf(style).Some? && style.fontName.JString? ==>
      Render(style.(fontSize := JInt(n))) == Err(BadFont)
  {
    var comp := [("width", JInt(n)), ("height", JInt(1))];
    assert DistinctKeys(comp);
    GetDistinct(comp, 0);
  }

  /** A colour's channel list, unpacked into `QColor.fromRgbF`, gives r, g, b in order and full opacity. */
  lemma ColorListUnpacks(c: Color)
    ensures RgbF(JArray(c.ToList())) == Some(RgbaF(c.r, c.g, c.b, 1.0))
  {
  }
}
